=== FILE: README.md ===
# L'Oréal routine builder: selection and transcript model

The routine builder is a browser page. A shopper picks a category, clicks product cards to
select them, and asks a chat completion endpoint for a skincare routine built from the
selection. The shopper can then carry on chatting. Apart from DOM and network plumbing, the
page's logic is a small state machine over two lists:

- `selectedProducts`: an ordered list of product records keyed by name. Clicking a card flips
  the product in or out of the list. Clicking an entry of the "selected products" panel removes
  it.
- `conversationHistory`: an append-only transcript. It starts with one system turn. Each chat
  submission, and each "Generate Routine" click with a non-empty selection, adds a user turn. It
  adds an assistant turn only when the reply has content. A "Generate Routine" click with nothing
  selected only raises an alert.

This project models that state machine as pure Dafny functions and proves the properties the
page relies on.

- `products.dfy` (`Products`): the product record, `findIndex` by name, `splice(k, 1)`, and
  name uniqueness.
- `catalog.dfy` (`Catalog`): the category filter and the card click's `find` by name.
- `selection.dfy` (`Selection`): toggle, remove-by-name, and the selected-products panel view.
- `conversation.dfy` (`Conversation`): turns and the abstract outcome of one completion
  request. It also holds the shared append step and the chat window lines each handler leaves.
- `app.dfy` (`App`): the whole page as `State` plus `Event` to a new state and a side effect
  (`Quiet`, `Alert`, or `Request` carrying the transcript sent). It also proves an invariant
  that holds in every state reachable from page load.

The network is an input, not a call. A category change carries the loaded catalog (`None` when
loading failed). A completion request carries its `Outcome`: `Answered(content)`, `NoContent`,
or `Failed` (anything thrown). `HasContent` follows JavaScript truthiness, so an empty reply
string counts as no content.

Two behaviours of the code worth stating plainly:

- A chat reply without content shows the fallback only in the chat window. The transcript gains
  only the user turn (`Conversation.Exchange`, `Conversation.ChatPane`).
- Toggling the same product twice restores the list only when its name was absent
  (`Selection.ToggleTwiceAbsent`). Otherwise the product moves to the end
  (`Selection.ToggleTwicePresent`, `Selection.ToggleTwiceReorders`).

Known behaviours kept as written:

- Identity is the name. With duplicate names in the grid, a card click toggles the first
  record of that name (`Catalog.Find`). A panel click removes the first selected entry of
  that name (`Selection.PanelClick`).
- The chat handler's "Thinking..." line is never taken down (`Conversation.ChatPane`).
- An empty chat message is sent like any other.

## Model

| member | source | states |
|---|---|---|
| `Products.FindIndex` | script.js:26-28 | -1 exactly when no entry carries the name; otherwise the first index whose entry carries it |
| `Products.RemoveAt` | script.js:36 | splicing out index k shortens the list by one; entries before k are unchanged and later ones shift down by one, in order |
| `Products.RemoveAtNames` | script.js:71-73 | removing an entry keeps names distinct; with distinct names, the set of names loses exactly the removed entry's name |
| `Products.AppendNames` | script.js:30-32 | appending a product whose name is absent keeps names distinct and adds exactly that name |
| `Catalog.Filter` | script.js:126-128 | the result is an order-preserving subsequence of the catalog; it contains every entry of the category, with its multiplicity, and nothing else; it is empty exactly when no entry has the category |
| `Catalog.Find` | script.js:113 | nothing is found exactly when no shown product carries the name; otherwise the first product carrying it |
| `Catalog.FindCard` | script.js:110-114 | looking up a card by its product's name (as the product carries it) always finds a product of that name; with distinct names it is the card's product |
| `Selection.Toggle` | script.js:25-38 | an absent name is appended at the end with earlier entries unchanged; a present name has its first matching entry spliced out |
| `Selection.RemoveByName` | script.js:66-73 | an absent name leaves the list unchanged; a present name has exactly its first matching entry spliced out |
| `Selection.TogglePresentIsRemove` | script.js:34-36 | on a selected name, toggling equals panel removal by that name |
| `Selection.ToggleFlipsNames` | script.js:26-37 | with distinct names, toggle keeps names distinct and flips the product's name in the set of selected names |
| `Selection.RemoveByNameNames` | script.js:67-73 | with distinct names, panel removal keeps names distinct and the set of names loses exactly the given name |
| `Selection.ToggleTwiceAbsent` | script.js:30-37 | toggling an unselected product twice restores the selection |
| `Selection.ToggleTwicePresent` | script.js:30-37 | toggling a selected product twice removes its entry and re-appends the toggled record at the end |
| `Selection.ToggleTwiceReorders` | script.js:30-37 | a two-product selection on which the double toggle changes the order |
| `Selection.Render` | script.js:47-59 | the panel is the placeholder if and only if the selection is empty; otherwise it has one entry per product, in selection order |
| `Selection.PanelClick` | script.js:64-73 | clicking entry i removes the first entry at or before i with the same name; with distinct names it removes exactly entry i |
| `Conversation.Initial` | script.js:141-146 | the transcript at load is a single system turn, and it is well formed |
| `Conversation.HasContent` | script.js:197 | only an answered request can have content, and an empty reply string counts as no content, as in JavaScript's truthiness test |
| `Conversation.RoutineRequest` | script.js:159-164 | the routine request carries each selected product's name, brand, category and description, one per product, in order |
| `Conversation.Exchange` | script.js:167-201 | the transcript keeps its old turns as a prefix and gains the user turn; it gains an assistant turn with the reply only when the reply has content, so it grows by 2 or 1 |
| `Conversation.ExchangeKeepsWellFormed` | script.js:196-201 | each exchange keeps the transcript well formed: one leading system turn, and every assistant turn a non-empty reply right after a user turn |
| `Conversation.RoutinePane` | script.js:197-214 | after a routine request the chat window shows the reply if and only if it has content, the error notice if and only if the request threw, and the fallback notice otherwise |
| `Conversation.ChatPane` | script.js:231-268 | after a chat message the window keeps its lines and gains the message, "Thinking..." and one assistant line: the reply, the fallback or the error notice |
| `App.Init` | script.js:141-146 | at load nothing is shown or selected and the transcript is the system turn |
| `App.ChangeCategory` | script.js:120-131 | a failed catalog load changes nothing; otherwise the grid is an order-preserving subsequence of the loaded catalog holding every product of the category, with its multiplicity, and nothing else; the selection and the transcript are untouched |
| `App.ClickCard` | script.js:108-115 | a card click toggles the first grid record carrying the card's name; it flips that name in the set of selected names, keeping names distinct; with distinct grid names it toggles the card's own product |
| `App.GenerateRoutine` | script.js:150-217 | an empty selection only alerts and changes nothing; otherwise the transcript plus the routine user turn is sent; the transcript keeps its old turns, gains that user turn, then the assistant reply only when it has content (so it grows by 2 or 1); the chat window is replaced |
| `App.SubmitChat` | script.js:220-270 | the transcript plus the typed user turn is sent; the transcript keeps its old turns, gains that user turn, then the assistant reply only when it has content (so it grows by 2 or 1); the selection is untouched |
| `App.Step` | script.js:64-270 | a category change, a card click and a panel click each do exactly what their handlers do, leave the transcript alone and send nothing; a routine request with nothing selected only alerts; a request is sent exactly for a chat message or a routine request with a non-empty selection, and only those change the transcript, growing it by 2 or 1 |
| `App.StepKeepsInv` | script.js:25-270 | every handler keeps selected names distinct and the transcript well formed |
| `App.RunKeepsInv` | script.js:141-270 | any sequence of events keeps the invariant and only extends the transcript |
| `App.Reachable` | script.js:22-146 | from page load, selected names stay pairwise distinct and index 0 of the transcript stays the system turn |

## Left out

- DOM rendering: HTML strings, `innerHTML`, listener wiring, and the cards' "selected" class. A
  category change re-renders the grid and clears the class, so it is not an invariant of the
  selection. The panel and the chat window are modelled as datatypes instead.
- The initial "Select a category to view products" grid placeholder. It is display only.
- The transient "Generating your routine..." notice. The routine handler overwrites it before
  it finishes, and each handler is one atomic step here.
- Fetching and parsing `products.json` and the completion response. These are inputs: an
  optional loaded catalog and an abstract `Outcome`.
- The `JSON.stringify` text of the routine user turn. The turn carries the product projection
  as data.
- The API-key check, `console.error` logging, and request parameters (model name,
  `max_tokens`, `temperature`). None of them affects state. The `alert` is modelled only as
  the `Alert` effect. The `Request` effect assumes `OPENAI_API_KEY` is declared. Without it,
  building the `Authorization` header throws a ReferenceError before `fetch` is called
  (script.js:183, 241), so no request goes out. The resulting state (user turn pushed, error
  notice shown) is the one the model gives for `Failed`.
- Overlapping asynchronous submissions. The page does not guard against them, and each handler
  is modelled as one atomic step, so interleaved transcripts are not modelled.
- Names are assumed to survive the HTML `data-name` attribute unchanged (script.js:53, 66, 96,
  112). In the page, a name holding `"` or a character reference such as `&amp;` reads back as a
  different string. A card click may then find a different product with that string as its name.
  It may also find nothing (script.js:113), and `toggleProductSelection` receives `undefined`:
  - With an empty selection, `findIndex` never calls its callback. So `undefined` is pushed
    (script.js:32), and re-rendering the panel throws at script.js:53. The selection keeps
    `undefined` from then on.
  - With a non-empty selection, the callback throws at script.js:27.
  - Once `undefined` is selected, a card click throws at script.js:27 when `findIndex` reaches it.
    A "Generate Routine" click throws at script.js:160, outside the `try` and before any user
    turn is pushed.
  - A panel click on such an entry removes nothing (script.js:67-71).
  `Catalog.FindCard`, `App.ClickCard` and `Selection.PanelClick` do not model this. They look up
  the product's own name, so a selected product is never `undefined` in the model.
- `App.Step`: a click on a card or panel entry index that is not on the page cannot occur in
  the browser. The model ignores it.

=== FILE: app.dfy ===
/** The page as one state machine: each event handler of the routine builder
    is one atomic step from the current state and the handler's inputs to a
    new state and the side effect it asks for. */
module App {
  import opened Products
  import opened Catalog
  import opened Selection
  import opened Conversation

  /** Everything the handlers read and write: the product grid, the
      selection, the transcript and the chat window. */
  datatype State = State(
    shown: seq<Product>,
    selected: seq<Product>,
    history: seq<Turn>,
    pane: seq<PaneLine>)

  /** One user action, together with what the network answered when the
      handler awaits it: the loaded catalog (`None` when loading it failed)
      and the completion outcome. */
  datatype Event =
    | CategoryChanged(loaded: Option<seq<Product>>, category: string)
    | CardClicked(card: nat)
    | EntryClicked(entry: nat)
    | RoutineRequested(outcome: Outcome)
    | ChatSubmitted(message: string, outcome: Outcome)

  /** The side effect a step asks for: nothing, a blocking alert, or a request
      to the completion endpoint carrying the whole transcript. */
  datatype Effect = Quiet | Alert(message: string) | Request(messages: seq<Turn>)

  datatype Transition = Transition(next: State, effect: Effect)

  const NoSelectionAlert: string := "No products selected. Please select products to generate a routine."

  /** The page at load: no products shown, nothing selected, the transcript
      holding the system turn. */
  function Init(): (s: State)
    ensures s.selected == [] && s.shown == [] && s.history == Initial()
  {
    State([], [], Initial(), [])
  }

  /** What the handlers keep true: selected names are distinct and the
      transcript is well formed. */
  predicate Inv(s: State)
  {
    UniqueNames(s.selected) && WellFormed(s.history)
  }

  /** The category filter's change handler: the grid shows the loaded
      catalog's products of that category. A failed load leaves the page
      as it was. The selection is kept. */
  function ChangeCategory(s: State, loaded: Option<seq<Product>>, category: string): (r: State)
    ensures loaded.None? ==> r == s
    ensures loaded.Some? ==> forall p :: p in r.shown <==> p in loaded.value && p.category == category
    ensures loaded.Some? ==> IsSubsequence(r.shown, loaded.value)
    ensures loaded.Some? ==>
      forall p :: multiset(r.shown)[p] == if p.category == category then multiset(loaded.value)[p] else 0
    ensures r.selected == s.selected && r.history == s.history && r.pane == s.pane
  {
    match loaded
    case None => s
    case Some(catalog) => s.(shown := Filter(catalog, category))
  }

  /** A card's click handler: look the product up by the card's name and
      toggle it. With duplicate names in the grid the first record of that
      name is the one toggled. */
  function ClickCard(s: State, card: nat): (r: State)
    requires card < |s.shown|
    ensures
      var k := FindIndex(s.shown, s.shown[card].name);
      0 <= k && FirstMatch(s.shown, s.shown[card].name, k) && r.selected == Toggle(s.selected, s.shown[k])
    ensures UniqueNames(s.selected) ==>
      && UniqueNames(r.selected)
      && Names(r.selected) == (Names(s.selected) - {s.shown[card].name}) + ({s.shown[card].name} - Names(s.selected))
    ensures UniqueNames(s.shown) ==> r.selected == Toggle(s.selected, s.shown[card])
    ensures r.shown == s.shown && r.history == s.history && r.pane == s.pane
  {
    FindCard(s.shown, card);
    var p := Find(s.shown, s.shown[card].name).value;
    ToggleFlipsNames(s.selected, p);
    s.(selected := Toggle(s.selected, p))
  }

  /** The "Generate Routine" handler. With nothing selected it only alerts.
      Otherwise it pushes the user turn describing the selection, sends the
      transcript, and pushes the reply only when it has content. */
  function GenerateRoutine(s: State, o: Outcome): (r: Transition)
    ensures |s.selected| == 0 ==> r.next == s && r.effect == Alert(NoSelectionAlert)
    ensures |s.selected| > 0 ==>
      && r.effect == Request(s.history + [Turn(User, RoutineRequest(s.selected))])
      && s.history <= r.next.history
      && |r.next.history| == |s.history| + (if HasContent(o) then 2 else 1)
      && r.next.history[|s.history|] == Turn(User, RoutineRequest(s.selected))
      && r.next.pane == RoutinePane(o)
    ensures |s.selected| > 0 && HasContent(o) ==>
      r.next.history[|s.history| + 1] == Turn(Assistant, Text(o.content))
    ensures r.next.selected == s.selected && r.next.shown == s.shown
  {
    if |s.selected| == 0 then Transition(s, Alert(NoSelectionAlert))
    else
      var user := RoutineRequest(s.selected);
      Transition(
        s.(history := Exchange(s.history, user, o), pane := RoutinePane(o)),
        Request(s.history + [Turn(User, user)]))
  }

  /** The chat form's submit handler: the same round with the typed text as
      the user turn, and the chat window appended to rather than replaced.
      An empty message is sent like any other. */
  function SubmitChat(s: State, message: string, o: Outcome): (r: Transition)
    ensures r.effect == Request(s.history + [Turn(User, Text(message))])
    ensures s.history <= r.next.history
    ensures |r.next.history| == |s.history| + (if HasContent(o) then 2 else 1)
    ensures r.next.history[|s.history|] == Turn(User, Text(message))
    ensures HasContent(o) ==> r.next.history[|s.history| + 1] == Turn(Assistant, Text(o.content))
    ensures r.next.pane == ChatPane(s.pane, message, o)
    ensures r.next.selected == s.selected && r.next.shown == s.shown
  {
    Transition(
      s.(history := Exchange(s.history, Text(message), o),
         pane := ChatPane(s.pane, message, o)),
      Request(s.history + [Turn(User, Text(message))]))
  }

  /** Dispatch one event. A click on a card or entry that is not on the page
      cannot happen and is ignored. */
  function Step(s: State, e: Event): (r: Transition)
    ensures s.history <= r.next.history
    ensures !(e.RoutineRequested? || e.ChatSubmitted?) ==> r.next.history == s.history && r.effect == Quiet
    ensures r.effect.Request? <==> e.ChatSubmitted? || (e.RoutineRequested? && |s.selected| > 0)
    ensures r.effect.Request? ==>
      |r.next.history| == |s.history| + (if HasContent(e.outcome) then 2 else 1)
    ensures !r.effect.Request? ==> r.next.history == s.history
    ensures e.CategoryChanged? ==> r.next == ChangeCategory(s, e.loaded, e.category)
    ensures e.CardClicked? && e.card < |s.shown| ==> r.next == ClickCard(s, e.card)
    ensures e.EntryClicked? && e.entry < |s.selected| ==>
      r.next == s.(selected := PanelClick(s.selected, e.entry))
    ensures e.RoutineRequested? && |s.selected| == 0 ==> r == Transition(s, Alert(NoSelectionAlert))
  {
    match e
    case CategoryChanged(loaded, category) => Transition(ChangeCategory(s, loaded, category), Quiet)
    case CardClicked(card) =>
      if card < |s.shown| then Transition(ClickCard(s, card), Quiet) else Transition(s, Quiet)
    case EntryClicked(entry) =>
      if entry < |s.selected| then Transition(s.(selected := PanelClick(s.selected, entry)), Quiet)
      else Transition(s, Quiet)
    case RoutineRequested(o) => GenerateRoutine(s, o)
    case ChatSubmitted(message, o) => SubmitChat(s, message, o)
  }

  /** Every step keeps the invariant. */
  lemma StepKeepsInv(s: State, e: Event)
    requires Inv(s)
    ensures Inv(Step(s, e).next)
  {
  }

  /** The state after handling `events` in order. */
  function Run(s: State, events: seq<Event>): (r: State)
    decreases |events|
  {
    if |events| == 0 then s else Run(Step(s, events[0]).next, events[1..])
  }

  /** Any run keeps the invariant and only ever extends the transcript. */
  lemma {:induction false} RunKeepsInv(s: State, events: seq<Event>)
    requires Inv(s)
    ensures Inv(Run(s, events))
    ensures s.history <= Run(s, events).history
    decreases |events|
  {
    if |events| > 0 {
      StepKeepsInv(s, events[0]);
      RunKeepsInv(Step(s, events[0]).next, events[1..]);
    }
  }

  /** From page load, whatever happens: selected names stay distinct, the
      transcript still starts with the system turn, and every assistant turn
      is a non-empty reply to a user turn. */
  lemma Reachable(events: seq<Event>)
    ensures UniqueNames(Run(Init(), events).selected)
    ensures WellFormed(Run(Init(), events).history)
    ensures Run(Init(), events).history[0] == Turn(System, Text(SystemPrompt))
  {
    RunKeepsInv(Init(), events);
  }
}

=== FILE: catalog.dfy ===
/** The catalog side of the routine builder: narrowing the loaded catalog to
    one category, and finding the product behind a clicked card. */
module Catalog {
  import opened Products

  /** `a` can be obtained from `b` by deleting entries: every entry of `a`
      occurs in `b`, in the same relative order. */
  predicate IsSubsequence<T(==)>(a: seq<T>, b: seq<T>)
    decreases |b|
  {
    || |a| == 0
    || (&& |b| > 0
        && (|| (a[0] == b[0] && IsSubsequence(a[1..], b[1..]))
            || IsSubsequence(a, b[1..])))
  }

  /** The products shown after a category change: the catalog entries whose
      category is exactly `category`, in catalog order. No match gives the
      empty list, not an error. */
  function Filter(catalog: seq<Product>, category: string): (r: seq<Product>)
    ensures forall p :: p in r ==> p in catalog && p.category == category
    ensures forall p :: p in catalog && p.category == category ==> p in r
    ensures forall p :: multiset(r)[p] == if p.category == category then multiset(catalog)[p] else 0
    ensures IsSubsequence(r, catalog)
    ensures r == [] <==> forall i :: 0 <= i < |catalog| ==> catalog[i].category != category
    decreases |catalog|
  {
    if |catalog| == 0 then []
    else
      var rest := Filter(catalog[1..], category);
      assert catalog == [catalog[0]] + catalog[1..];
      if catalog[0].category == category then [catalog[0]] + rest else rest
  }

  /** Array.prototype.find with a name-equality callback, as the card click
      handler uses it: the first shown product carrying `name`, or nothing. */
  function Find(shown: seq<Product>, name: string): (r: Option<Product>)
    ensures r == None <==> name !in Names(shown)
    ensures r.Some? ==> exists k :: FirstMatch(shown, name, k) && r.value == shown[k]
  {
    var k := FindIndex(shown, name);
    if k == -1 then None else Some(shown[k])
  }

  /** The card for `shown[i]` always finds a product, and when names in the
      grid are distinct it is that very product. With duplicate names the
      first record of that name is found instead. */
  lemma FindCard(shown: seq<Product>, i: nat)
    requires i < |shown|
    ensures Find(shown, shown[i].name).Some?
    ensures Find(shown, shown[i].name).value.name == shown[i].name
    ensures UniqueNames(shown) ==> Find(shown, shown[i].name) == Some(shown[i])
  {
  }
}

=== FILE: conversation.dfy ===
/** The conversation transcript sent to the chat completion endpoint, the
    abstract outcome of one request to it, and the chat window's lines. */
module Conversation {
  import opened Products

  datatype Role = System | User | Assistant

  /** What the "Generate Routine" button sends about one selected product:
      every field except the image. */
  datatype RoutineItem = RoutineItem(name: string, brand: string, category: string, description: string)

  /** The content of a turn. A routine request carries the selected products
      it describes; its wire text ("Here are the selected products: "
      followed by their JSON encoding) is not modelled. */
  datatype Content = Text(text: string) | SelectedProducts(items: seq<RoutineItem>)

  datatype Turn = Turn(role: Role, content: Content)

  const SystemPrompt: string :=
    "You are a helpful assistant for skincare advice. You only respond with products by L'Oreal."

  /** The transcript at page load: the single system turn. */
  function Initial(): (h: seq<Turn>)
    ensures |h| == 1 && h[0].role == System
    ensures WellFormed(h)
  {
    [Turn(System, Text(SystemPrompt))]
  }

  /** How one request to the completion endpoint ended. `Answered` is a
      parsed body whose first choice has a message content (possibly empty);
      `NoContent` is a body without `choices` or with a null content;
      `Failed` is anything thrown: a rejected fetch, a body that is not JSON,
      or an empty `choices` array whose first element is undefined. */
  datatype Outcome = Answered(content: string) | NoContent | Failed

  /** The handlers' test `data.choices && data.choices[0].message.content`:
      JavaScript treats the empty string as false. */
  predicate HasContent(o: Outcome)
    ensures HasContent(o) ==> o.Answered?
    ensures o == Answered("") ==> !HasContent(o)
  {
    o.Answered? && o.content != ""
  }

  /** The projection of the selection that a routine request carries. */
  function RoutineRequest(sel: seq<Product>): (c: Content)
    ensures c.SelectedProducts? && |c.items| == |sel|
    ensures forall i :: 0 <= i < |sel| ==>
      c.items[i] == RoutineItem(sel[i].name, sel[i].brand, sel[i].category, sel[i].description)
  {
    SelectedProducts(seq(|sel|, i requires 0 <= i < |sel| =>
      RoutineItem(sel[i].name, sel[i].brand, sel[i].category, sel[i].description)))
  }

  /** One request/response round on the transcript, shared by both handlers:
      the user turn is pushed before the request, and an assistant turn only
      when the response has content. Nothing is ever removed. */
  function Exchange(history: seq<Turn>, user: Content, o: Outcome): (r: seq<Turn>)
    ensures |r| == |history| + (if HasContent(o) then 2 else 1)
    ensures history <= r
    ensures r[|history|] == Turn(User, user)
    ensures HasContent(o) ==> r[|history| + 1] == Turn(Assistant, Text(o.content))
    ensures forall i :: |history| <= i < |r| && r[i].role == Assistant ==> HasContent(o)
  {
    var asked := history + [Turn(User, user)];
    if HasContent(o) then asked + [Turn(Assistant, Text(o.content))] else asked
  }

  /** The transcript's shape as the page maintains it: the system turn first
      and nowhere else, and every assistant turn a non-empty reply that
      directly follows a user turn. */
  predicate WellFormed(h: seq<Turn>)
  {
    && |h| >= 1
    && h[0] == Turn(System, Text(SystemPrompt))
    && (forall i :: 1 <= i < |h| ==> h[i].role != System)
    && (forall i :: 1 <= i < |h| && h[i].role == Assistant ==>
          h[i - 1].role == User && h[i].content.Text? && h[i].content.text != "")
  }

  /** Every exchange keeps the transcript well formed. */
  lemma ExchangeKeepsWellFormed(h: seq<Turn>, user: Content, o: Outcome)
    requires WellFormed(h)
    ensures WellFormed(Exchange(h, user, o))
  {
  }

  /** A line of the chat window. */
  datatype PaneLine =
    | Status(text: string)       // a fixed notice: progress, fallback or error
    | RoutineReply(text: string) // "Your Routine:" with the reply and the follow-up hint
    | You(text: string)          // the user's chat message
    | AssistantSays(text: string)

  const RoutineFallbackText: string := "Sorry, I couldn't generate a routine."
  const RoutineErrorText: string := "An error occurred while generating the routine. Please try again."
  const ThinkingText: string := "Thinking..."
  const ChatFallbackText: string := "Sorry, I couldn't understand that."
  const ChatErrorText: string := "An error occurred. Please try again."

  /** The chat window after a routine request: it is replaced by the reply,
      by the fallback notice when the reply has no content, or by the error
      notice when the request threw. */
  function RoutinePane(o: Outcome): (pane: seq<PaneLine>)
    ensures |pane| == 1
    ensures pane[0].RoutineReply? <==> HasContent(o)
    ensures HasContent(o) ==> pane[0].text == o.content
    ensures pane[0] == Status(RoutineErrorText) <==> o.Failed?
    ensures pane[0] == Status(RoutineFallbackText) <==> !HasContent(o) && !o.Failed?
  {
    match o
    case Answered(text) => if text != "" then [RoutineReply(text)] else [Status(RoutineFallbackText)]
    case NoContent => [Status(RoutineFallbackText)]
    case Failed => [Status(RoutineErrorText)]
  }

  /** The chat window after a chat message: the old lines, then the message,
      the "Thinking..." notice (never taken down), and the assistant's line. */
  function ChatPane(pane: seq<PaneLine>, message: string, o: Outcome): (r: seq<PaneLine>)
    ensures |r| == |pane| + 3 && pane <= r
    ensures r[|pane|] == You(message) && r[|pane| + 1] == Status(ThinkingText)
    ensures r[|pane| + 2].AssistantSays?
    ensures HasContent(o) ==> r[|pane| + 2].text == o.content
    ensures !HasContent(o) && !o.Failed? ==> r[|pane| + 2].text == ChatFallbackText
    ensures o.Failed? ==> r[|pane| + 2].text == ChatErrorText
  {
    var reply :=
      match o
      case Answered(text) => if text != "" then text else ChatFallbackText
      case NoContent => ChatFallbackText
      case Failed => ChatErrorText;
    pane + [You(message), Status(ThinkingText), AssistantSays(reply)]
  }
}

=== FILE: products.dfy ===
/** Product records and the name-keyed lookups the routine builder performs on
    ordered lists of them (the catalog grid and the selected-products list). */
module Products {

  /** A possibly-missing value, standing for JavaScript's `undefined`. */
  datatype Option<+T> = None | Some(value: T)

  /** A catalog entry. Its identity is its name: every lookup in the
      routine builder compares names, never whole records, and names are not
      guaranteed to be unique in the catalog. */
  datatype Product = Product(
    name: string,
    brand: string,
    category: string,
    description: string,
    image: string)

  /** The set of names occurring in a list of products. */
  function Names(s: seq<Product>): (r: set<string>)
  {
    set p | p in s :: p.name
  }

  /** No two entries of the list share a name. */
  predicate UniqueNames(s: seq<Product>)
  {
    forall i, j :: 0 <= i < j < |s| ==> s[i].name != s[j].name
  }

  /** `k` is the first index of `s` whose entry is named `name`. */
  predicate FirstMatch(s: seq<Product>, name: string, k: int)
  {
    && 0 <= k < |s|
    && s[k].name == name
    && forall j :: 0 <= j < k ==> s[j].name != name
  }

  /** Array.prototype.findIndex with a name-equality callback: the first
      index whose entry carries `name`, or -1 when there is none. */
  function FindIndex(s: seq<Product>, name: string): (r: int)
    ensures -1 <= r < |s|
    ensures r == -1 <==> name !in Names(s)
    ensures r != -1 ==> FirstMatch(s, name, r)
    decreases |s|
  {
    if |s| == 0 then -1
    else if s[0].name == name then 0
    else
      var k := FindIndex(s[1..], name);
      if k == -1 then -1 else k + 1
  }

  /** Array.prototype.splice(k, 1): drop the entry at index `k`, keeping the
      others in their relative order. */
  function RemoveAt(s: seq<Product>, k: nat): (r: seq<Product>)
    requires k < |s|
    ensures |r| == |s| - 1
    ensures forall j :: 0 <= j < k ==> r[j] == s[j]
    ensures forall j :: k <= j < |r| ==> r[j] == s[j + 1]
  {
    s[..k] + s[k + 1..]
  }

  /** Removing an entry keeps names distinct, and when they were distinct the
      removed entry's name is exactly the one that disappears. */
  lemma RemoveAtNames(s: seq<Product>, k: nat)
    requires k < |s|
    ensures UniqueNames(s) ==> UniqueNames(RemoveAt(s, k))
    ensures UniqueNames(s) ==> Names(RemoveAt(s, k)) == Names(s) - {s[k].name}
  {
  }

  /** Appending a product whose name is absent keeps names distinct and adds
      exactly that name. */
  lemma AppendNames(s: seq<Product>, p: Product)
    requires p.name !in Names(s)
    ensures UniqueNames(s) ==> UniqueNames(s + [p])
    ensures Names(s + [p]) == Names(s) + {p.name}
  {
  }
}

=== FILE: selection.dfy ===
/** The selected-products tracker: an ordered list of products keyed by name,
    changed only by toggling a card and by clicking an entry of the
    selected-products panel. */
module Selection {
  import opened Products

  /** toggleProductSelection: append the product when no entry carries its
      name, otherwise splice out the first entry that does. */
  function Toggle(sel: seq<Product>, p: Product): (r: seq<Product>)
    ensures p.name !in Names(sel) ==> |r| == |sel| + 1 && r[..|sel|] == sel && r[|sel|] == p
    ensures p.name in Names(sel) ==> exists k :: FirstMatch(sel, p.name, k) && r == RemoveAt(sel, k)
  {
    var k := FindIndex(sel, p.name);
    if k == -1 then sel + [p] else RemoveAt(sel, k)
  }

  /** The panel's click handler: splice out the first entry named `name`;
      a name that is not selected changes nothing. */
  function RemoveByName(sel: seq<Product>, name: string): (r: seq<Product>)
    ensures name !in Names(sel) ==> r == sel
    ensures name in Names(sel) ==> exists k :: FirstMatch(sel, name, k) && r == RemoveAt(sel, k)
  {
    var k := FindIndex(sel, name);
    if k == -1 then sel else RemoveAt(sel, k)
  }

  /** On a selected name, toggling and panel removal are the same step. */
  lemma TogglePresentIsRemove(sel: seq<Product>, p: Product)
    requires p.name in Names(sel)
    ensures Toggle(sel, p) == RemoveByName(sel, p.name)
  {
  }

  /** Toggle is a flip on the set of selected names, and it keeps selected
      names pairwise distinct. */
  lemma ToggleFlipsNames(sel: seq<Product>, p: Product)
    ensures UniqueNames(sel) ==> UniqueNames(Toggle(sel, p))
    ensures UniqueNames(sel) ==> Names(Toggle(sel, p)) == (Names(sel) - {p.name}) + ({p.name} - Names(sel))
  {
  }

  /** Panel removal keeps selected names pairwise distinct and drops exactly
      the clicked name. */
  lemma RemoveByNameNames(sel: seq<Product>, name: string)
    requires UniqueNames(sel)
    ensures UniqueNames(RemoveByName(sel, name))
    ensures Names(RemoveByName(sel, name)) == Names(sel) - {name}
  {
  }

  /** Toggling a product that is not selected twice restores the selection. */
  lemma ToggleTwiceAbsent(sel: seq<Product>, p: Product)
    requires p.name !in Names(sel)
    ensures Toggle(Toggle(sel, p), p) == sel
  {
  }

  /** Toggling a selected product twice does not restore the selection: the
      first toggle removes the entry carrying that name and the second
      appends the toggled record at the end. */
  lemma ToggleTwicePresent(sel: seq<Product>, p: Product)
    requires UniqueNames(sel)
    requires p.name in Names(sel)
    ensures exists k :: FirstMatch(sel, p.name, k) && Toggle(Toggle(sel, p), p) == RemoveAt(sel, k) + [p]
  {
    var k := FindIndex(sel, p.name);
    RemoveAtNames(sel, k);
  }

  /** A concrete selection on which the double toggle moves the product from
      the front to the back. */
  lemma ToggleTwiceReorders()
    ensures
      var a := Product("Cleanser", "CeraVe", "cleanser", "", "a.jpg");
      var b := Product("Serum", "Garnier", "skincare", "", "b.jpg");
      && Toggle([a, b], a) == [b]
      && Toggle(Toggle([a, b], a), a) == [b, a]
      && Toggle(Toggle([a, b], a), a) != [a, b]
  {
  }

  /** One entry of the selected-products panel: the `data-name` key and the
      picture shown for it. */
  datatype Entry = Entry(name: string, image: string)

  /** The selected-products panel: the "No products selected." placeholder,
      or one entry per selected product. */
  datatype SelectedView = NothingSelected | Listed(entries: seq<Entry>)

  /** updateSelectedProducts: the placeholder exactly when nothing is
      selected, otherwise the entries in selection order. */
  function Render(sel: seq<Product>): (v: SelectedView)
    ensures v == NothingSelected <==> |sel| == 0
    ensures v.Listed? ==> |v.entries| == |sel|
    ensures v.Listed? ==> forall i :: 0 <= i < |sel| ==> v.entries[i] == Entry(sel[i].name, sel[i].image)
  {
    if |sel| == 0 then NothingSelected
    else Listed(seq(|sel|, i requires 0 <= i < |sel| => Entry(sel[i].name, sel[i].image)))
  }

  /** Clicking entry `i` of the rendered panel: removal by the entry's
      `data-name`. With distinct names it removes exactly `sel[i]`; otherwise
      it removes the first entry sharing that name. */
  function PanelClick(sel: seq<Product>, i: nat): (r: seq<Product>)
    requires i < |sel|
    ensures exists k :: k <= i && FirstMatch(sel, sel[i].name, k) && r == RemoveAt(sel, k)
    ensures UniqueNames(sel) ==> r == RemoveAt(sel, i)
  {
    var v := Render(sel);
    RemoveByName(sel, v.entries[i].name)
  }
}
